=== FILE: README.md ===
# hitcounter report renderer, modelled in Dafny

The hitcounter repository is a small page-view beacon service. Its
read-only report tool, `report.js`, fetches the logs of the last 24 hours
from MongoDB and prints each one to the terminal as indented,
ANSI-coloured JSON. This project models the pure part of that tool:

- `colorizeJson` (`Render.Colorize`). It is a recursive pretty-printer.
  Null is gray, strings are green and quoted, numbers are yellow, booleans
  are magenta, and keys are cyan and quoted. An empty array prints as `[]`
  and an empty object as `{}`. A non-empty container prints one item per
  line. Items are joined by `,\n` and indented `2 * indent + 2` spaces,
  and the closing bracket sits at `2 * indent` spaces.
- A reader, `Reparse.ParseValue`, that reads such a rendering back. It is
  the partner of the renderer. `Reparse.ValueRoundTrip` proves that
  reading the rendering of a value gives back that exact value, provided
  no string or key in it contains a double quote. So the rendering shows
  every item, every key exactly once and in order, and every scalar.
  The renderer writes strings without escaping, so the restriction is
  needed. `Reparse.QuotesMakeRenderingAmbiguous` shows, for any two strings,
  two different values with the same rendering.
- The 24-hour cutoff `Date.now() - 24 * 60 * 60 * 1000`
  (`Report.Cutoff`).
- The display rewrite `{ ...log, _id: log._id.toString() }`
  (`Report.DisplayRecord`), and the text printed for one log
  (`Report.RenderLog`).

Modules follow the pieces of `report.js`:

- `Ansi`: the colour codes.
- `Text`: `repeat`, `join` and prefix tests.
- `Decimal`: integer text.
- `JsonTree`: the value datatype.
- `Render`: `colorizeJson`.
- `Reparse`: the reader and the round-trip proofs.
- `Report`: the parts of `viewLast24Hours`.

JSON values are the `JsonTree.Json` datatype. An object is the sequence
of its entries in `Object.keys` order. Numbers are integers, written as their exact
decimal digits. That is how JavaScript prints safe integers, whose
magnitude is at most 2^53 - 1. The colour codes
are the exact escape strings of the source, treated as opaque text.

The comment at report.js:78 calls the output "pretty-printed colored
JSON". The code does not escape strings or keys, so the output is not JSON
in general. This model follows the code.

## Model

| member | source | states |
|---|---|---|
| Render.Colorize | report.js:20-48 | Every rendering is at least two characters long. Its first character tells the kind of value: `[` exactly for arrays, `{` exactly for objects, the escape character exactly for null, strings, numbers and booleans. The recursion is structural, so the function is total on every finite value. |
| Render.ScalarsIgnoreIndent | report.js:23-26 | A null, string, number or boolean renders the same at every indent. Null opens with gray, a string with green, a number with yellow and a boolean with magenta, and every one ends with the reset code. |
| Render.StringVerbatim | report.js:24 | A string appears verbatim, unescaped, between two double quotes, right after the green code and before the closing reset code. The input is always a substring of the output. |
| Render.EmptyContainers | report.js:28-36 | An empty array renders exactly `[]` and an empty object exactly `{}`, with no escape character, at every indent. |
| Render.ItemIndentation | report.js:21-31 | Each array item line is exactly `2 * indent + 2` spaces followed by the item rendered at `indent + 1`, which never starts with a space. |
| Render.FieldIndentation | report.js:38-42 | Each object entry line is exactly `2 * indent + 2` spaces, then the cyan-quoted key, then `": "`, then the value rendered at `indent + 1`. |
| Text.Spaces | report.js:21 | `'  '.repeat(n)` is `2 * n` characters, all spaces. |
| Text.Join | report.js:30 | `.join(sep)` holds the parts in order with one separator between each two and nothing else: its length is the parts' total plus one separator per gap, and it opens with the first part. Its partners are `Text.JoinFirst` and `Text.JoinLast`. |
| Text.JoinLast | report.js:30 | Joining one more part appends a separator and that part to the earlier join. |
| Decimal.IntText | report.js:25 | The text of an integer is a `-` exactly when it is negative, followed by a non-empty run of digits with no leading zero. Its partner `Decimal.ParseIntText` reads it back to the same integer. |
| Ansi.CodesDistinct | report.js:7-18 | The four value colour codes and the cyan key code are distinct five-character codes starting with the escape character, and none equals the reset code. |
| Decimal.ParseIntText | report.js:25 | When the text after a printed integer does not start with a digit, reading the printed text gives that integer back and leaves the text after it untouched. |
| Reparse.ValueRoundTrip | report.js:20-48 | For a value with no double quote in any string or key, reading back its rendering at any indent gives exactly that value. The reader stops exactly where the rendering ends. |
| Reparse.ItemsRoundTrip | report.js:28-32 | Reading the `,\n`-joined item lines of an array, then the closing line at `2 * indent` spaces, gives back the items in order. |
| Reparse.FieldsRoundTrip | report.js:34-45 | Reading the `,\n`-joined entry lines of an object, then the closing line, gives back each key and value in the given order, each exactly once. |
| Reparse.RenderingInjective | report.js:20-48 | Two quote-free values with the same rendering at the same indent are equal. |
| Reparse.QuotesMakeRenderingAmbiguous | report.js:24-31 | For any two strings, a two-string array renders at the top level (indent 0) exactly like a one-string array. That one string holds the first string, a double quote, the reset code, `,\n`, the item indentation, the green code, a double quote and the second string. The two values differ, so without escaping the rendering does not determine the value. |
| Report.Cutoff | report.js:62 | The window starts exactly 86,400,000 ms before now. |
| Report.JsString | report.js:83 | `toString` of a JSON `_id`: null gives `null`, a string gives itself, a number gives its decimal text without leading zeros (`Decimal.IntText`), which reads back as that number, a boolean gives `true` or `false`, an empty array gives the empty text, and an object gives `[object Object]`. |
| Report.JsStringArrays | report.js:83 | Three worked examples of the array rule: `[null, 1, ["x", null]]` gives `,1,x,`, `[null]` gives the empty text, and `[true, {}]` gives `true,[object Object]`. |
| Report.JsStringArrayRule | report.js:83 | For every array, a one-item array gives that item's slot: the empty text for null, the item's own text otherwise. Each further item appends a comma and its slot, so the text is the slots joined by commas and nested arrays are flattened. |
| Report.IdText | report.js:83 | `toString` of an ObjectId is its hex text, and of any other non-null value its `Report.JsString` text. It fails exactly for null, where the source throws. |
| Report.Lookup | report.js:83 | `log._id` is absent exactly when no field is named `_id`. Otherwise it is the value of the first field named `_id`. |
| Report.DisplayRecord | report.js:81-84 | The rewrite fails exactly when `_id` is missing or null. Otherwise the keys stay the same and in the same order, every field other than `_id` is unchanged, and `_id` holds the text of its old value. |
| Report.DisplayRecordIdempotent | report.js:81-84 | Rewriting a rewritten record changes nothing. |
| Report.RenderLog | report.js:86 | `colorizeJson(logForDisplay)` yields text exactly when the rewrite succeeds and every field then holds a JSON value. That text is an object's rendering, opening with `{`. Its partner `Report.RenderLogReadsBack` reads it back to the rewritten record. |
| Report.StoredLogRenders | report.js:79-86 | For a stored log, the rewrite succeeds and the result is a JSON object with the log's keys in order and its other values unchanged. So `colorizeJson` is reached. |
| Report.RenderLogReadsBack | report.js:79-86 | The text printed for a quote-free stored log reads back, with nothing left over, as exactly the rewritten record: an object with the log's keys in order, every field other than `_id` as stored, and `_id` as the text of its old value. |

## Left out

- MongoDB connection, query, sort and close (report.js:53-69, report.js:92-95): database I/O. The `$gte` comparison on ISO-8601 strings and the descending sort run inside the database.
- Console output, the dotenv/environment lookup, the "no logs" and "found N logs" messages, the error message and the top-level call (report.js:2-4, report.js:54, report.js:59, report.js:71-76, report.js:86-91, report.js:99): I/O. A log whose rewrite throws stops the `forEach` loop part-way through the list. That is not modelled; `Report.RenderLog` only returns `None` for that log.
- Floating-point number text (report.js:25): numbers are integers. `NaN`, `Infinity`, `-0`, fractions and the exponent form JavaScript uses from 10^21 up are not modelled. From 2^53 up to 10^21, JavaScript prints the shortest digits that round to the value, padded with zeros (`2 ** 64` prints as `18446744073709552000`). `Decimal.IntText` writes the exact digits, so it matches the source only for safe integers.
- The `String(obj)` fallback (report.js:47) for `undefined`, functions, symbols and bigints: these are outside the JSON shape of the datatype.
- `Object.keys` ordering: JavaScript lists integer-like keys first, in ascending order. The model takes an object's entry sequence as already being in `Object.keys` order.
- Report.ToJson: a field other than `_id` that holds an ObjectId makes the model return `None`. The source would instead walk the ObjectId's own properties, which the model does not represent.
- Report.IdText: `toString` of a JSON object `_id` is modelled as `[object Object]`, and of an array as its comma-joined items. Other `toString` overrides are not modelled.
- Report.Cutoff: the conversion to a `Date` and to an ISO-8601 string is left out, including the `RangeError` for instants outside the range of `Date`.
- Terminal semantics of the ANSI codes (report.js:7-18): the codes are opaque constant strings. `bright`, `red` and `blue` appear only in console messages, and `white` is not used anywhere.
- Characters: JavaScript strings are UTF-16 code units, while Dafny strings here are sequences of Unicode characters. The renderer copies text unchanged, so this makes no difference to what is modelled.
- index.js (Hono routing, `/ping` and `/`) and test-log.js (an HTTP client script): server plumbing and network I/O.
- The privacy-normalisation pipeline (IP anonymisation, private-network filter, user-agent classification, referrer and free-text sanitising, the `/log` endpoint) is not part of this model. index.js defines only `/ping` and `/` and has no `/log` handler, so there is no normalisation code to model.

=== FILE: ansi.dfy ===
/** The ANSI colour codes of the report tool (report.js:7-18), kept as
    opaque constant strings: only their text matters to the model, not
    what a terminal does with them. */
module Ansi {

  /** The escape character that starts every colour code. */
  const Esc: char := 27 as char

  const Reset: string := [Esc] + "[0m"
  const Bright: string := [Esc] + "[1m"
  const Red: string := [Esc] + "[31m"
  const Green: string := [Esc] + "[32m"
  const Yellow: string := [Esc] + "[33m"
  const Blue: string := [Esc] + "[34m"
  const Magenta: string := [Esc] + "[35m"
  const Cyan: string := [Esc] + "[36m"
  const White: string := [Esc] + "[37m"
  const Gray: string := [Esc] + "[90m"

  /** The four codes a rendered null, string, number or boolean opens
      with. */
  predicate IsValueCode(code: string)
  {
    code == Gray || code == Green || code == Yellow || code == Magenta
  }

  /** The codes the renderer opens a token with: the four value codes and
      the key code `Cyan`. */
  predicate IsOpeningCode(code: string)
  {
    IsValueCode(code) || code == Cyan
  }

  /** Every code the renderer opens a token with is five characters long,
      starts with the escape character, and differs from each of the
      others and from `Reset`: a reader can tell the token kind from the
      first five characters alone. */
  lemma CodesDistinct()
    ensures forall c :: IsOpeningCode(c) ==> |c| == 5 && c[0] == Esc && c != Reset
    ensures |Reset| == 4 && Reset[0] == Esc
    ensures Gray != Green && Gray != Yellow && Gray != Magenta && Gray != Cyan
    ensures Green != Yellow && Green != Magenta && Green != Cyan
    ensures Yellow != Magenta && Yellow != Cyan && Magenta != Cyan
  {
    assert Gray[2] == '9' && Green[2] == '3';
    assert Green[3] == '2' && Yellow[3] == '3' && Magenta[3] == '5' && Cyan[3] == '6';
  }
}

=== FILE: decimal.dfy ===
/** The text of a number in the rendering. JavaScript prints a safe
    integer (magnitude at most 2^53 - 1) as its exact decimal digits with
    a leading `-` when negative; this module writes that text and reads
    it back. */
module Decimal {

  import opened Options

  predicate IsDigit(c: char)
  {
    '0' <= c <= '9'
  }

  predicate AllDigits(s: string)
  {
    forall i :: 0 <= i < |s| ==> IsDigit(s[i])
  }

  function DigitChar(d: nat): (c: char)
    requires d < 10
    ensures IsDigit(c)
  {
    ('0' as int + d) as char
  }

  function DigitValue(c: char): (d: nat)
    requires IsDigit(c)
    ensures d < 10 && DigitChar(d) == c
  {
    c as int - '0' as int
  }

  /** The decimal digits of `n`, most significant first, without leading
      zeros. */
  function NatText(n: nat): (r: string)
    ensures |r| > 0 && AllDigits(r)
    ensures |r| > 1 ==> r[0] != '0'
  {
    if n < 10 then [DigitChar(n)] else NatText(n / 10) + [DigitChar(n % 10)]
  }

  /** `String(n)` for an integer `n`. */
  function IntText(n: int): (r: string)
    ensures |r| > 0 && (r[0] == '-' <==> n < 0)
    ensures var digits := if n < 0 then r[1..] else r;
      |digits| > 0 && AllDigits(digits) && (|digits| > 1 ==> digits[0] != '0')
  {
    if n < 0 then "-" + NatText(-n) else NatText(n)
  }

  /** The number a run of digits denotes. */
  function DigitsValue(ds: string): nat
    requires AllDigits(ds)
  {
    if |ds| == 0 then 0 else 10 * DigitsValue(ds[..|ds| - 1]) + DigitValue(ds[|ds| - 1])
  }

  /** The length of the longest run of digits at the front of `s`. */
  function DigitRun(s: string): (k: nat)
    ensures k <= |s| && AllDigits(s[..k])
    ensures k < |s| ==> !IsDigit(s[k])
  {
    if |s| == 0 || !IsDigit(s[0]) then 0
    else
      var k := 1 + DigitRun(s[1..]);
      assert s[..k] == [s[0]] + s[1..][..k - 1];
      k
  }

  /** Reads a non-empty run of digits from the front of `s`, taking every
      digit there is, and returns its value with the text after it. */
  function ParseDigits(s: string): (r: Option<(nat, string)>)
    ensures r.Some? ==> |r.value.1| < |s|
  {
    var k := DigitRun(s);
    if k == 0 then None else Some((DigitsValue(s[..k]), s[k..]))
  }

  /** Reads an optionally negative decimal integer from the front of `s`. */
  function ParseInt(s: string): (r: Option<(int, string)>)
    ensures r.Some? ==> |r.value.1| < |s|
  {
    if |s| > 0 && s[0] == '-' then
      match ParseDigits(s[1..])
      case None => None
      case Some((v, rest)) => Some((-(v as int), rest))
    else
      match ParseDigits(s)
      case None => None
      case Some((v, rest)) => Some((v, rest))
  }

  lemma {:induction false} NatTextValue(n: nat)
    ensures DigitsValue(NatText(n)) == n
    decreases n
  {
    if n >= 10 {
      var t := NatText(n);
      assert t[..|t| - 1] == NatText(n / 10);
      NatTextValue(n / 10);
    }
  }

  /** A digit run followed by a non-digit is read exactly up to its end. */
  lemma {:induction false} DigitRunOfDigits(ds: string, rest: string)
    requires AllDigits(ds)
    requires |rest| == 0 || !IsDigit(rest[0])
    ensures DigitRun(ds + rest) == |ds|
    decreases |ds|
  {
    if |ds| > 0 {
      assert (ds + rest)[1..] == ds[1..] + rest;
      DigitRunOfDigits(ds[1..], rest);
    }
  }

  lemma ParseDigitsText(n: nat, rest: string)
    requires |rest| == 0 || !IsDigit(rest[0])
    ensures ParseDigits(NatText(n) + rest) == Some((n, rest))
  {
    var t := NatText(n);
    DigitRunOfDigits(t, rest);
    assert (t + rest)[..|t|] == t;
    assert (t + rest)[|t|..] == rest;
    NatTextValue(n);
  }

  /** Reading back the text of `n` gives `n`, and leaves whatever followed
      it untouched, as long as no digit follows. */
  lemma ParseIntText(n: int, rest: string)
    requires |rest| == 0 || !IsDigit(rest[0])
    ensures ParseInt(IntText(n) + rest) == Some((n, rest))
  {
    if n < 0 {
      var t := NatText(-n);
      var s := "-" + t + rest;
      assert IntText(n) + rest == s;
      assert s[1..] == t + rest;
      ParseDigitsText(-n, rest);
      assert ParseDigits(s[1..]) == Some((-n, rest));
    } else {
      var t := NatText(n);
      var s := t + rest;
      assert IntText(n) + rest == s;
      assert s[0] == t[0] && IsDigit(t[0]);
      ParseDigitsText(n, rest);
      assert ParseDigits(s) == Some((n, rest));
    }
  }
}

=== FILE: json.dfy ===
/** The JSON-shaped values the report tool renders: the MongoDB documents it
    reads, after their `_id` has been turned into a string. */
module JsonTree {

  /** A value as `colorizeJson` sees it. An object is the sequence of its
      entries in the order `Object.keys` lists them, so key order is kept.
      Numbers are integers (see Decimal). */
  datatype Json =
    | Null
    | Str(s: string)
    | Num(n: int)
    | Bool(b: bool)
    | Arr(items: seq<Json>)
    | Obj(fields: seq<(string, Json)>)
  {
    predicate IsScalar()
    {
      Null? || Str? || Num? || Bool?
    }
  }

  /** The keys of an object's entries, in order. */
  function Keys<V>(fields: seq<(string, V)>): (ks: seq<string>)
    ensures |ks| == |fields|
    ensures forall i :: 0 <= i < |fields| ==> ks[i] == fields[i].0
  {
    seq(|fields|, i requires 0 <= i < |fields| => fields[i].0)
  }

  /** No string and no key anywhere in `j` holds a double quote. The
      renderer writes strings and keys between double quotes without
      escaping, so only such values can be read back unambiguously. */
  predicate QuoteFree(j: Json)
    decreases j
  {
    match j
    case Str(s) => '"' !in s
    case Arr(items) => forall i :: 0 <= i < |items| ==> QuoteFree(items[i])
    case Obj(fields) =>
      forall i :: 0 <= i < |fields| ==> '"' !in fields[i].0 && QuoteFree(fields[i].1)
    case _ => true
  }
}

=== FILE: options.dfy ===
/** The optional-value datatype used for every operation that can fail. */
module Options {

  /** `None` stands for a TypeError the source throws, or for text the
      reader rejects. */
  datatype Option<+T> = None | Some(value: T)
}

=== FILE: render.dfy ===
/** `colorizeJson` (report.js:20-48): renders a JSON value as indented text
    with ANSI colours, one array item or object entry per line. */
module Render {

  import Ansi
  import Decimal
  import opened Text
  import opened JsonTree

  /** `colorizeJson(j, indent)`. Scalars are wrapped in their colour code
      and `Reset`; an empty container is `[]` or `{}`; a non-empty one
      puts each item on its own line, indented one level deeper than its
      closing bracket. */
  function Colorize(j: Json, indent: nat): (r: string)
    ensures |r| >= 2
    ensures r[0] == '[' <==> j.Arr?
    ensures r[0] == '{' <==> j.Obj?
    ensures r[0] == Ansi.Esc <==> j.IsScalar()
    decreases j, 1
  {
    match j
    case Null => Ansi.Gray + "null" + Ansi.Reset
    case Str(s) => Ansi.Green + "\"" + s + "\"" + Ansi.Reset
    case Num(n) => Ansi.Yellow + Decimal.IntText(n) + Ansi.Reset
    case Bool(b) => Ansi.Magenta + (if b then "true" else "false") + Ansi.Reset
    case Arr(items) =>
      if |items| == 0 then "[]"
      else "[\n" + Join(ItemLines(items, indent), ",\n") + "\n" + Spaces(indent) + "]"
    case Obj(fields) =>
      if |fields| == 0 then "{}"
      else "{\n" + Join(FieldLines(fields, indent), ",\n") + "\n" + Spaces(indent) + "}"
  }

  /** The lines of a non-empty array at level `indent`, before joining. */
  function ItemLines(items: seq<Json>, indent: nat): (lines: seq<string>)
    ensures |lines| == |items|
    decreases Arr(items), 0
  {
    seq(|items|, i requires 0 <= i < |items| => Spaces(indent) + "  " + Colorize(items[i], indent + 1))
  }

  /** A key in cyan between double quotes. */
  function ColoredKey(key: string): string
  {
    Ansi.Cyan + "\"" + key + "\"" + Ansi.Reset
  }

  /** The lines of a non-empty object at level `indent`, before joining. */
  function FieldLines(fields: seq<(string, Json)>, indent: nat): (lines: seq<string>)
    ensures |lines| == |fields|
    decreases Obj(fields), 0
  {
    seq(|fields|, i requires 0 <= i < |fields| =>
      var (key, value) := fields[i];
      Spaces(indent) + "  " + ColoredKey(key) + ": " + Colorize(value, indent + 1))
  }

  /** A null, string, number or boolean renders the same at every nesting
      level, opens with its kind's colour code and closes with `Reset`. */
  lemma ScalarsIgnoreIndent(j: Json, indent: nat, other: nat)
    requires j.IsScalar()
    ensures Colorize(j, indent) == Colorize(j, other)
    ensures var r := Colorize(j, indent);
      |r| >= 9 && Ansi.IsValueCode(r[..5]) && r[|r| - 4..] == Ansi.Reset
    ensures var code := Colorize(j, indent)[..5];
      && (j.Null? ==> code == Ansi.Gray)
      && (j.Str? ==> code == Ansi.Green)
      && (j.Num? ==> code == Ansi.Yellow)
      && (j.Bool? ==> code == Ansi.Magenta)
  {
    var r := Colorize(j, indent);
    match j
    case Null => assert r[..5] == Ansi.Gray;
    case Str(s) => assert r[..5] == Ansi.Green;
    case Num(n) => assert r[..5] == Ansi.Yellow;
    case Bool(b) => assert r[..5] == Ansi.Magenta;
  }

  /** A string is written verbatim, without escaping, right after the
      green code and an opening double quote: the input is always a
      substring of the output. */
  lemma StringVerbatim(s: string, indent: nat)
    ensures var r := Colorize(Str(s), indent);
      |r| == |s| + 11 && r[6..6 + |s|] == s && r[5] == '"' && r[6 + |s|] == '"'
    ensures var r := Colorize(Str(s), indent);
      r[..5] == Ansi.Green && r[|r| - 4..] == Ansi.Reset
  {
  }

  /** An empty array or object renders as its two brackets alone, with no
      colour code, at every nesting level. */
  lemma EmptyContainers(indent: nat)
    ensures Colorize(Arr([]), indent) == "[]"
    ensures Colorize(Obj([]), indent) == "{}"
    ensures Ansi.Esc !in Colorize(Arr([]), indent) && Ansi.Esc !in Colorize(Obj([]), indent)
  {
  }

  /** Each array item sits behind exactly `2 * indent + 2` spaces: the
      item's own rendering never starts with a space. */
  lemma ItemIndentation(items: seq<Json>, indent: nat, i: nat)
    requires i < |items|
    ensures var line := ItemLines(items, indent)[i];
      |line| > 2 * indent + 2 && line[..2 * indent + 2] == Spaces(indent + 1)
      && line[2 * indent + 2] != ' '
      && line[2 * indent + 2..] == Colorize(items[i], indent + 1)
  {
    SpacesStep(indent);
    var line := ItemLines(items, indent)[i];
    assert line == Spaces(indent + 1) + Colorize(items[i], indent + 1);
  }

  /** Each object entry sits behind exactly `2 * indent + 2` spaces and
      is its key in cyan, `": "`, and its value rendered one level deeper. */
  lemma FieldIndentation(fields: seq<(string, Json)>, indent: nat, i: nat)
    requires i < |fields|
    ensures var line := FieldLines(fields, indent)[i];
      var key := ColoredKey(fields[i].0);
      |line| > 2 * indent + 2 && line[..2 * indent + 2] == Spaces(indent + 1)
      && line[2 * indent + 2] == Ansi.Esc
      && line[2 * indent + 2..] == key + ": " + Colorize(fields[i].1, indent + 1)
  {
    SpacesStep(indent);
    var line := FieldLines(fields, indent)[i];
    var rest := ColoredKey(fields[i].0) + ": " + Colorize(fields[i].1, indent + 1);
    assert line == Spaces(indent + 1) + rest;
    assert rest[0] == Ansi.Esc;
  }
}

=== FILE: reparse.dfy ===
/** A reader for the text `colorizeJson` writes. It is the renderer's
    inverse on values whose strings and keys hold no double quote: reading
    a rendering gives back the value it was made from, so the rendering
    shows every item, every key in its order, and every scalar, exactly. */
module Reparse {

  import opened Options
  import Ansi
  import Decimal
  import opened Text
  import opened JsonTree
  import opened Render

  /** The position of the first double quote in `s`, if any. */
  function QuoteAt(s: string): (r: Option<nat>)
    ensures r.Some? ==> r.value < |s| && s[r.value] == '"' && '"' !in s[..r.value]
    ensures r.None? ==> '"' !in s
  {
    if |s| == 0 then None
    else if s[0] == '"' then Some(0)
    else
      match QuoteAt(s[1..])
      case None => None
      case Some(k) =>
        assert s[..k + 1] == [s[0]] + s[1..][..k];
        Some(k + 1)
  }

  /** Reads `"text"` from the front of `s`; the text ends at the first
      double quote. */
  function ParseQuoted(s: string): (r: Option<(string, string)>)
    ensures r.Some? ==> |r.value.1| < |s|
  {
    if |s| == 0 || s[0] != '"' then None
    else
      match QuoteAt(s[1..])
      case None => None
      case Some(k) => Some((s[1..k + 1], s[k + 2..]))
  }

  /** Reads one rendered value at nesting level `indent` from the front of
      `s`, and returns it with the text after it. */
  function ParseValue(s: string, indent: nat): (r: Option<(Json, string)>)
    ensures r.Some? ==> |r.value.1| < |s|
    decreases |s|, 1
  {
    if StartsWith(s, "[]") then Some((Arr([]), s[2..]))
    else if StartsWith(s, "{}") then Some((Obj([]), s[2..]))
    else if StartsWith(s, "[\n") then
      match ParseItems(s[2..], indent)
      case None => None
      case Some((items, rest)) => Some((Arr(items), rest))
    else if StartsWith(s, "{\n") then
      match ParseFields(s[2..], indent)
      case None => None
      case Some((fields, rest)) => Some((Obj(fields), rest))
    else ParseScalar(s)
  }

  /** Reads a coloured null, string, number or boolean. */
  function ParseScalar(s: string): (r: Option<(Json, string)>)
    ensures r.Some? ==> |r.value.1| < |s|
  {
    if StartsWith(s, Ansi.Gray) then
      match Expect(s[5..], "null" + Ansi.Reset)
      case None => None
      case Some(rest) => Some((Null, rest))
    else if StartsWith(s, Ansi.Green) then
      match ParseQuoted(s[5..])
      case None => None
      case Some((text, afterText)) =>
        match Expect(afterText, Ansi.Reset)
        case None => None
        case Some(rest) => Some((Str(text), rest))
    else if StartsWith(s, Ansi.Yellow) then
      match Decimal.ParseInt(s[5..])
      case None => None
      case Some((n, afterNumber)) =>
        match Expect(afterNumber, Ansi.Reset)
        case None => None
        case Some(rest) => Some((Num(n), rest))
    else if StartsWith(s, Ansi.Magenta) then
      match Expect(s[5..], "true" + Ansi.Reset)
      case Some(rest) => Some((Bool(true), rest))
      case None =>
        match Expect(s[5..], "false" + Ansi.Reset)
        case None => None
        case Some(rest) => Some((Bool(false), rest))
    else None
  }

  /** Reads the lines of a non-empty array at level `indent`, up to and
      including its closing bracket. */
  function ParseItems(s: string, indent: nat): (r: Option<(seq<Json>, string)>)
    ensures r.Some? ==> |r.value.1| < |s| && |r.value.0| > 0
    decreases |s|, 0
  {
    match Expect(s, Spaces(indent + 1))
    case None => None
    case Some(line) =>
      match ParseValue(line, indent + 1)
      case None => None
      case Some((item, afterItem)) =>
        if StartsWith(afterItem, ",\n") then
          match ParseItems(afterItem[2..], indent)
          case None => None
          case Some((more, rest)) => Some(([item] + more, rest))
        else
          match Expect(afterItem, "\n" + Spaces(indent) + "]")
          case None => None
          case Some(rest) => Some(([item], rest))
  }

  /** Reads one object entry line at level `indent`: the indentation,
      the cyan-quoted key, `": "` and the value. */
  function ParseEntry(s: string, indent: nat): (r: Option<((string, Json), string)>)
    ensures r.Some? ==> |r.value.1| < |s|
    decreases |s|, 0
  {
    match Expect(s, Spaces(indent + 1) + Ansi.Cyan)
    case None => None
    case Some(line) =>
      match ParseQuoted(line)
      case None => None
      case Some((key, afterKey)) =>
        match Expect(afterKey, Ansi.Reset + ": ")
        case None => None
        case Some(valueText) =>
          match ParseValue(valueText, indent + 1)
          case None => None
          case Some((value, afterValue)) => Some(((key, value), afterValue))
  }

  /** Reads the lines of a non-empty object at level `indent`, up to and
      including its closing brace. */
  function ParseFields(s: string, indent: nat): (r: Option<(seq<(string, Json)>, string)>)
    ensures r.Some? ==> |r.value.1| < |s| && |r.value.0| > 0
    decreases |s|, 1
  {
    match ParseEntry(s, indent)
    case None => None
    case Some((field, afterField)) =>
      if StartsWith(afterField, ",\n") then
        match ParseFields(afterField[2..], indent)
        case None => None
        case Some((more, rest)) => Some(([field] + more, rest))
      else
        match Expect(afterField, "\n" + Spaces(indent) + "}")
        case None => None
        case Some(rest) => Some(([field], rest))
  }

  lemma {:induction false} QuoteAtFirst(text: string, rest: string)
    requires '"' !in text
    ensures QuoteAt(text + "\"" + rest) == Some(|text|)
    decreases |text|
  {
    if |text| > 0 {
      assert (text + "\"" + rest)[1..] == text[1..] + "\"" + rest;
      QuoteAtFirst(text[1..], rest);
    }
  }

  /** A quote-free text between double quotes is read back whole. */
  lemma QuotedRoundTrip(text: string, rest: string)
    requires '"' !in text
    ensures ParseQuoted("\"" + text + "\"" + rest) == Some((text, rest))
  {
    var s := "\"" + text + "\"" + rest;
    assert s[1..] == text + "\"" + rest;
    QuoteAtFirst(text, rest);
    assert s[1..|text| + 1] == text;
    assert s[|text| + 2..] == rest;
  }

  /** The scalar reader sends a text opening with the gray code to the
      null reader. */
  lemma ParseScalarGray(body: string)
    ensures ParseScalar(Ansi.Gray + body)
      == match Expect(body, "null" + Ansi.Reset)
         case None => None
         case Some(rest) => Some((Null, rest))
  {
    ExpectConcat(Ansi.Gray, body);
    assert (Ansi.Gray + body)[5..] == body;
  }

  /** The scalar reader sends a text opening with the green code to the
      string reader. */
  lemma ParseScalarGreen(body: string)
    ensures ParseScalar(Ansi.Green + body)
      == match ParseQuoted(body)
         case None => None
         case Some((text, afterText)) =>
           match Expect(afterText, Ansi.Reset)
           case None => None
           case Some(rest) => Some((Str(text), rest))
  {
    Ansi.CodesDistinct();
    NotStartsWith(Ansi.Green + body, Ansi.Gray, 2);
    ExpectConcat(Ansi.Green, body);
    assert (Ansi.Green + body)[5..] == body;
  }

  /** The scalar reader sends a text opening with the yellow code to the
      number reader. */
  lemma ParseScalarYellow(body: string)
    ensures ParseScalar(Ansi.Yellow + body)
      == match Decimal.ParseInt(body)
         case None => None
         case Some((n, afterNumber)) =>
           match Expect(afterNumber, Ansi.Reset)
           case None => None
           case Some(rest) => Some((Num(n), rest))
  {
    Ansi.CodesDistinct();
    NotStartsWith(Ansi.Yellow + body, Ansi.Gray, 2);
    NotStartsWith(Ansi.Yellow + body, Ansi.Green, 3);
    ExpectConcat(Ansi.Yellow, body);
    assert (Ansi.Yellow + body)[5..] == body;
  }

  /** The scalar reader sends a text opening with the magenta code to the
      boolean reader. */
  lemma ParseScalarMagenta(body: string)
    ensures ParseScalar(Ansi.Magenta + body)
      == match Expect(body, "true" + Ansi.Reset)
         case Some(rest) => Some((Bool(true), rest))
         case None =>
           match Expect(body, "false" + Ansi.Reset)
           case None => None
           case Some(rest) => Some((Bool(false), rest))
  {
    Ansi.CodesDistinct();
    NotStartsWith(Ansi.Magenta + body, Ansi.Gray, 2);
    NotStartsWith(Ansi.Magenta + body, Ansi.Green, 3);
    NotStartsWith(Ansi.Magenta + body, Ansi.Yellow, 3);
    ExpectConcat(Ansi.Magenta, body);
    assert (Ansi.Magenta + body)[5..] == body;
  }

  lemma NullRoundTrip(rest: string)
    ensures ParseScalar(Ansi.Gray + "null" + Ansi.Reset + rest) == Some((Null, rest))
  {
    assert Ansi.Gray + "null" + Ansi.Reset + rest == Ansi.Gray + ("null" + Ansi.Reset + rest);
    ParseScalarGray("null" + Ansi.Reset + rest);
    ExpectConcat("null" + Ansi.Reset, rest);
  }

  lemma StrRoundTrip(t: string, rest: string)
    requires '"' !in t
    ensures ParseScalar(Ansi.Green + "\"" + t + "\"" + Ansi.Reset + rest) == Some((Str(t), rest))
  {
    var body := "\"" + t + "\"" + (Ansi.Reset + rest);
    assert Ansi.Green + "\"" + t + "\"" + Ansi.Reset + rest == Ansi.Green + body;
    ParseScalarGreen(body);
    QuotedRoundTrip(t, Ansi.Reset + rest);
    ExpectConcat(Ansi.Reset, rest);
  }

  lemma NumRoundTrip(n: int, rest: string)
    ensures ParseScalar(Ansi.Yellow + Decimal.IntText(n) + Ansi.Reset + rest) == Some((Num(n), rest))
  {
    var body := Decimal.IntText(n) + (Ansi.Reset + rest);
    assert Ansi.Yellow + Decimal.IntText(n) + Ansi.Reset + rest == Ansi.Yellow + body;
    ParseScalarYellow(body);
    Decimal.ParseIntText(n, Ansi.Reset + rest);
    ExpectConcat(Ansi.Reset, rest);
  }

  lemma BoolRoundTrip(b: bool, rest: string)
    ensures ParseScalar(Ansi.Magenta + (if b then "true" else "false") + Ansi.Reset + rest)
      == Some((Bool(b), rest))
  {
    var word := if b then "true" else "false";
    var body := word + Ansi.Reset + rest;
    assert Ansi.Magenta + word + Ansi.Reset + rest == Ansi.Magenta + body;
    ParseScalarMagenta(body);
    ExpectConcat(word + Ansi.Reset, rest);
    if !b {
      NotStartsWith(body, "true" + Ansi.Reset, 0);
    }
  }

  /** A rendered scalar is read back as itself, whatever follows it. */
  lemma ScalarRoundTrip(j: Json, indent: nat, rest: string)
    requires j.IsScalar() && QuoteFree(j)
    ensures ParseScalar(Colorize(j, indent) + rest) == Some((j, rest))
  {
    match j
    case Null => NullRoundTrip(rest);
    case Str(t) => StrRoundTrip(t, rest);
    case Num(n) => NumRoundTrip(n, rest);
    case Bool(b) => BoolRoundTrip(b, rest);
  }

  /** The lines of a non-empty array, from the `k`-th item on, joined. */
  lemma ItemLinesSuffix(items: seq<Json>, indent: nat, k: nat)
    requires k < |items|
    ensures ItemLines(items, indent)[k..] == ItemLines(items[k..], indent)
  {
  }

  lemma FieldLinesSuffix(fields: seq<(string, Json)>, indent: nat, k: nat)
    requires k < |fields|
    ensures FieldLines(fields, indent)[k..] == FieldLines(fields[k..], indent)
  {
  }

  /** How the reader continues after the first array item of a line. */
  lemma ParseItemsNext(indent: nat, line: string, item: Json, more: string)
    requires ParseValue(line, indent + 1) == Some((item, ",\n" + more))
    ensures ParseItems(Spaces(indent + 1) + line, indent)
      == match ParseItems(more, indent)
         case None => None
         case Some((items, rest)) => Some(([item] + items, rest))
  {
    ExpectConcat(Spaces(indent + 1), line);
    ExpectConcat(",\n", more);
    assert (",\n" + more)[2..] == more;
  }

  /** How the reader ends an array after its last item. */
  lemma ParseItemsLast(indent: nat, line: string, item: Json, rest: string)
    requires ParseValue(line, indent + 1) == Some((item, "\n" + Spaces(indent) + "]" + rest))
    ensures ParseItems(Spaces(indent + 1) + line, indent) == Some(([item], rest))
  {
    ExpectConcat(Spaces(indent + 1), line);
    NotStartsWith("\n" + Spaces(indent) + "]" + rest, ",\n", 0);
    ExpectConcat("\n" + Spaces(indent) + "]", rest);
  }

  /** An entry line, split where the entry reader looks. */
  lemma EntryLineText(indent: nat, key: string, valueText: string)
    ensures Spaces(indent + 1) + ColoredKey(key) + ": " + valueText
      == Spaces(indent + 1) + Ansi.Cyan + ("\"" + key + "\"" + (Ansi.Reset + ": " + valueText))
  {
  }

  /** The entry reader takes a line's indentation, quoted key and colon,
      then reads the value. */
  lemma ParseEntryLine(indent: nat, key: string, valueText: string, value: Json, after: string)
    requires '"' !in key
    requires ParseValue(valueText, indent + 1) == Some((value, after))
    ensures ParseEntry(Spaces(indent + 1) + ColoredKey(key) + ": " + valueText, indent)
      == Some(((key, value), after))
  {
    var afterKey := Ansi.Reset + ": " + valueText;
    EntryLineText(indent, key, valueText);
    ExpectConcat(Spaces(indent + 1) + Ansi.Cyan, "\"" + key + "\"" + afterKey);
    QuotedRoundTrip(key, afterKey);
    ExpectConcat(Ansi.Reset + ": ", valueText);
  }

  /** How the reader continues after the first object entry of a line. */
  lemma ParseFieldsNext(indent: nat, key: string, valueText: string, value: Json, more: string)
    requires '"' !in key
    requires ParseValue(valueText, indent + 1) == Some((value, ",\n" + more))
    ensures ParseFields(Spaces(indent + 1) + ColoredKey(key) + ": " + valueText, indent)
      == match ParseFields(more, indent)
         case None => None
         case Some((fields, rest)) => Some(([(key, value)] + fields, rest))
  {
    ParseEntryLine(indent, key, valueText, value, ",\n" + more);
    ExpectConcat(",\n", more);
    assert (",\n" + more)[2..] == more;
  }

  /** How the reader ends an object after its last entry. */
  lemma ParseFieldsLast(indent: nat, key: string, valueText: string, value: Json, rest: string)
    requires '"' !in key
    requires ParseValue(valueText, indent + 1) == Some((value, "\n" + Spaces(indent) + "}" + rest))
    ensures ParseFields(Spaces(indent + 1) + ColoredKey(key) + ": " + valueText, indent)
      == Some(([(key, value)], rest))
  {
    ParseEntryLine(indent, key, valueText, value, "\n" + Spaces(indent) + "}" + rest);
    NotStartsWith("\n" + Spaces(indent) + "}" + rest, ",\n", 0);
    ExpectConcat("\n" + Spaces(indent) + "}", rest);
  }

  /** The reader sends a text opening with `[` and a line break to the
      array reader. */
  lemma ParseValueArray(body: string, indent: nat)
    ensures ParseValue("[\n" + body, indent)
      == match ParseItems(body, indent)
         case None => None
         case Some((items, rest)) => Some((Arr(items), rest))
  {
    NotStartsWith("[\n" + body, "[]", 1);
    NotStartsWith("[\n" + body, "{}", 0);
    ExpectConcat("[\n", body);
  }

  /** The reader sends a text opening with `{` and a line break to the
      object reader. */
  lemma ParseValueObject(body: string, indent: nat)
    ensures ParseValue("{\n" + body, indent)
      == match ParseFields(body, indent)
         case None => None
         case Some((fields, rest)) => Some((Obj(fields), rest))
  {
    NotStartsWith("{\n" + body, "[]", 0);
    NotStartsWith("{\n" + body, "{}", 1);
    NotStartsWith("{\n" + body, "[\n", 0);
    ExpectConcat("{\n", body);
  }

  /** The reader sends a text opening with the escape character to the
      scalar reader. */
  lemma ParseValueScalar(s: string, indent: nat)
    requires |s| > 0 && s[0] == Ansi.Esc
    ensures ParseValue(s, indent) == ParseScalar(s)
  {
    NotStartsWith(s, "[]", 0);
    NotStartsWith(s, "{}", 0);
    NotStartsWith(s, "[\n", 0);
    NotStartsWith(s, "{\n", 0);
  }

  /** A non-empty array's rendering, followed by `rest`, as the reader
      meets it. */
  lemma ArrayText(j: Json, indent: nat, rest: string)
    requires j.Arr? && |j.items| > 0
    ensures Colorize(j, indent) + rest
      == "[\n" + (Join(ItemLines(j.items, indent), ",\n") + ("\n" + Spaces(indent) + "]" + rest))
  {
  }

  /** A non-empty object's rendering, followed by `rest`, as the reader
      meets it. */
  lemma ObjectText(j: Json, indent: nat, rest: string)
    requires j.Obj? && |j.fields| > 0
    ensures Colorize(j, indent) + rest
      == "{\n" + (Join(FieldLines(j.fields, indent), ",\n") + ("\n" + Spaces(indent) + "}" + rest))
  {
  }

  /** Reading back what `colorizeJson` wrote gives the value it was given,
      and stops exactly where the rendering ends. */
  lemma {:induction false} ValueRoundTrip(j: Json, indent: nat, rest: string)
    requires QuoteFree(j)
    ensures ParseValue(Colorize(j, indent) + rest, indent) == Some((j, rest))
    decreases j, 1
  {
    var s := Colorize(j, indent) + rest;
    if j.IsScalar() {
      assert s[0] == Colorize(j, indent)[0];
      ParseValueScalar(s, indent);
      ScalarRoundTrip(j, indent, rest);
    } else if j.Arr? {
      if |j.items| == 0 {
        EmptyContainers(indent);
        ExpectConcat("[]", rest);
      } else {
        var body := Join(ItemLines(j.items, indent), ",\n") + ("\n" + Spaces(indent) + "]" + rest);
        ArrayText(j, indent, rest);
        ParseValueArray(body, indent);
        ItemsRoundTrip(j, 0, indent, rest);
        assert j.items[0..] == j.items;
      }
    } else {
      if |j.fields| == 0 {
        EmptyContainers(indent);
        NotStartsWith(s, "[]", 0);
        ExpectConcat("{}", rest);
      } else {
        var body := Join(FieldLines(j.fields, indent), ",\n") + ("\n" + Spaces(indent) + "}" + rest);
        ObjectText(j, indent, rest);
        ParseValueObject(body, indent);
        FieldsRoundTrip(j, 0, indent, rest);
        assert j.fields[0..] == j.fields;
      }
    }
  }

  /** The rendered lines of an array from its `k`-th item on, when that
      item is the last, as the reader meets them. */
  lemma LastItemText(a: Json, k: nat, indent: nat, close: string)
    requires a.Arr? && k + 1 == |a.items|
    ensures Join(ItemLines(a.items[k..], indent), ",\n") + close
      == Spaces(indent + 1) + (Colorize(a.items[k], indent + 1) + close)
  {
    SpacesStep(indent);
    assert ItemLines(a.items[k..], indent)[0] == Spaces(indent + 1) + Colorize(a.items[k], indent + 1);
  }

  /** The rendered lines of an array from its `k`-th item on, when more
      items follow, as the reader meets them. */
  lemma NextItemText(a: Json, k: nat, indent: nat, close: string)
    requires a.Arr? && k + 1 < |a.items|
    ensures Join(ItemLines(a.items[k..], indent), ",\n") + close
      == Spaces(indent + 1) + (Colorize(a.items[k], indent + 1)
         + (",\n" + (Join(ItemLines(a.items[k + 1..], indent), ",\n") + close)))
  {
    var items := a.items[k..];
    var lines := ItemLines(items, indent);
    var item := Colorize(a.items[k], indent + 1);
    SpacesStep(indent);
    assert lines[0] == Spaces(indent + 1) + item;
    JoinFirst(lines, ",\n");
    ItemLinesSuffix(items, indent, 1);
    assert items[1..] == a.items[k + 1..];
    Regroup(Spaces(indent + 1), item, ",\n", Join(ItemLines(a.items[k + 1..], indent), ",\n"), close);
  }

  /** The rendered lines of an object from its `k`-th entry on, when that
      entry is the last, as the reader meets them. */
  lemma LastFieldText(o: Json, k: nat, indent: nat, close: string)
    requires o.Obj? && k + 1 == |o.fields|
    ensures Join(FieldLines(o.fields[k..], indent), ",\n") + close
      == Spaces(indent + 1) + ColoredKey(o.fields[k].0) + ": " + (Colorize(o.fields[k].1, indent + 1) + close)
  {
    SpacesStep(indent);
    assert FieldLines(o.fields[k..], indent)[0]
      == Spaces(indent + 1) + ColoredKey(o.fields[k].0) + ": " + Colorize(o.fields[k].1, indent + 1);
  }

  /** The rendered lines of an object from its `k`-th entry on, when more
      entries follow, as the reader meets them. */
  lemma NextFieldText(o: Json, k: nat, indent: nat, close: string)
    requires o.Obj? && k + 1 < |o.fields|
    ensures Join(FieldLines(o.fields[k..], indent), ",\n") + close
      == Spaces(indent + 1) + ColoredKey(o.fields[k].0) + ": " + (Colorize(o.fields[k].1, indent + 1)
         + (",\n" + (Join(FieldLines(o.fields[k + 1..], indent), ",\n") + close)))
  {
    var fields := o.fields[k..];
    var lines := FieldLines(fields, indent);
    var head := Spaces(indent + 1) + ColoredKey(o.fields[k].0) + ": ";
    var valueText := Colorize(o.fields[k].1, indent + 1);
    SpacesStep(indent);
    assert lines[0] == head + valueText;
    JoinFirst(lines, ",\n");
    FieldLinesSuffix(fields, indent, 1);
    assert fields[1..] == o.fields[k + 1..];
    Regroup(head, valueText, ",\n", Join(FieldLines(o.fields[k + 1..], indent), ",\n"), close);
  }

  /** Reading back the lines of array `a` from its `k`-th item on gives
      those items, in order, and stops after the closing bracket. */
  lemma {:induction false} ItemsRoundTrip(a: Json, k: nat, indent: nat, rest: string)
    requires a.Arr? && k < |a.items| && QuoteFree(a)
    ensures ParseItems(Join(ItemLines(a.items[k..], indent), ",\n") + ("\n" + Spaces(indent) + "]" + rest), indent)
      == Some((a.items[k..], rest))
    decreases a, 0, |a.items| - k, 1
  {
    if k + 1 == |a.items| {
      LastItemRoundTrip(a, k, indent, rest);
    } else {
      NextItemRoundTrip(a, k, indent, rest);
    }
  }

  lemma {:induction false} LastItemRoundTrip(a: Json, k: nat, indent: nat, rest: string)
    requires a.Arr? && k + 1 == |a.items| && QuoteFree(a)
    ensures ParseItems(Join(ItemLines(a.items[k..], indent), ",\n") + ("\n" + Spaces(indent) + "]" + rest), indent)
      == Some((a.items[k..], rest))
    decreases a, 0, |a.items| - k, 0
  {
    var close := "\n" + Spaces(indent) + "]" + rest;
    var line := Colorize(a.items[k], indent + 1) + close;
    assert a.items[k] < a;
    ValueRoundTrip(a.items[k], indent + 1, close);
    ParseItemsLast(indent, line, a.items[k], rest);
    LastItemText(a, k, indent, close);
    SuffixCons(a.items, k);
  }

  lemma {:induction false} NextItemRoundTrip(a: Json, k: nat, indent: nat, rest: string)
    requires a.Arr? && k + 1 < |a.items| && QuoteFree(a)
    ensures ParseItems(Join(ItemLines(a.items[k..], indent), ",\n") + ("\n" + Spaces(indent) + "]" + rest), indent)
      == Some((a.items[k..], rest))
    decreases a, 0, |a.items| - k, 0
  {
    var close := "\n" + Spaces(indent) + "]" + rest;
    var more := Join(ItemLines(a.items[k + 1..], indent), ",\n") + close;
    var line := Colorize(a.items[k], indent + 1) + (",\n" + more);
    assert a.items[k] < a;
    ValueRoundTrip(a.items[k], indent + 1, ",\n" + more);
    ParseItemsNext(indent, line, a.items[k], more);
    ItemsRoundTrip(a, k + 1, indent, rest);
    NextItemText(a, k, indent, close);
    SuffixCons(a.items, k);
  }

  /** Reading back the lines of object `o` from its `k`-th entry on gives
      those keys and values, in order, and stops after the closing brace. */
  lemma {:induction false} FieldsRoundTrip(o: Json, k: nat, indent: nat, rest: string)
    requires o.Obj? && k < |o.fields| && QuoteFree(o)
    ensures ParseFields(Join(FieldLines(o.fields[k..], indent), ",\n") + ("\n" + Spaces(indent) + "}" + rest), indent)
      == Some((o.fields[k..], rest))
    decreases o, 0, |o.fields| - k, 1
  {
    if k + 1 == |o.fields| {
      LastFieldRoundTrip(o, k, indent, rest);
    } else {
      NextFieldRoundTrip(o, k, indent, rest);
    }
  }

  lemma {:induction false} LastFieldRoundTrip(o: Json, k: nat, indent: nat, rest: string)
    requires o.Obj? && k + 1 == |o.fields| && QuoteFree(o)
    ensures ParseFields(Join(FieldLines(o.fields[k..], indent), ",\n") + ("\n" + Spaces(indent) + "}" + rest), indent)
      == Some((o.fields[k..], rest))
    decreases o, 0, |o.fields| - k, 0
  {
    var close := "\n" + Spaces(indent) + "}" + rest;
    var (key, value) := o.fields[k];
    var valueText := Colorize(value, indent + 1) + close;
    assert '"' !in key && QuoteFree(value);
    assert value < o;
    ValueRoundTrip(value, indent + 1, close);
    ParseFieldsLast(indent, key, valueText, value, rest);
    LastFieldText(o, k, indent, close);
    SuffixCons(o.fields, k);
  }

  lemma {:induction false} NextFieldRoundTrip(o: Json, k: nat, indent: nat, rest: string)
    requires o.Obj? && k + 1 < |o.fields| && QuoteFree(o)
    ensures ParseFields(Join(FieldLines(o.fields[k..], indent), ",\n") + ("\n" + Spaces(indent) + "}" + rest), indent)
      == Some((o.fields[k..], rest))
    decreases o, 0, |o.fields| - k, 0
  {
    var close := "\n" + Spaces(indent) + "}" + rest;
    var (key, value) := o.fields[k];
    var more := Join(FieldLines(o.fields[k + 1..], indent), ",\n") + close;
    var valueText := Colorize(value, indent + 1) + (",\n" + more);
    assert '"' !in key && QuoteFree(value);
    assert value < o;
    ValueRoundTrip(value, indent + 1, ",\n" + more);
    ParseFieldsNext(indent, key, valueText, value, more);
    FieldsRoundTrip(o, k + 1, indent, rest);
    NextFieldText(o, k, indent, close);
    SuffixCons(o.fields, k);
  }

  /** Two quote-free values never render alike at the same level: the
      rendering determines the value, including every key and its order. */
  lemma RenderingInjective(a: Json, b: Json, indent: nat)
    requires QuoteFree(a) && QuoteFree(b)
    requires Colorize(a, indent) == Colorize(b, indent)
    ensures a == b
  {
    ValueRoundTrip(a, indent, "");
    ValueRoundTrip(b, indent, "");
    assert Colorize(a, indent) + "" == Colorize(b, indent) + "";
  }

  /** The rendering of a one-string array at the top level. */
  lemma OneStringRendering(x: string)
    ensures Colorize(Arr([Str(x)]), 0) == "[\n" + ("  " + Colorize(Str(x), 1)) + "\n]"
  {
    var line := "  " + Colorize(Str(x), 1);
    assert Spaces(0) == "";
    var lines := ItemLines([Str(x)], 0);
    assert lines[0] == line;
    assert lines == [line];
  }

  /** The rendering of a two-string array at the top level. */
  lemma TwoStringRendering(x: string, y: string)
    ensures Colorize(Arr([Str(x), Str(y)]), 0)
      == "[\n" + ("  " + Colorize(Str(x), 1) + ",\n" + ("  " + Colorize(Str(y), 1))) + "\n]"
  {
    var lineX := "  " + Colorize(Str(x), 1);
    var lineY := "  " + Colorize(Str(y), 1);
    assert Spaces(0) == "";
    var lines := ItemLines([Str(x), Str(y)], 0);
    assert lines[0] == lineX && lines[1] == lineY;
    assert lines == [lineX, lineY];
    assert Join(lines, ",\n") == lineX + ",\n" + lineY;
  }

  /** A string item line, split around its text. */
  lemma StringLine(x: string)
    ensures "  " + Colorize(Str(x), 1) == ("  " + Ansi.Green + "\"") + x + ("\"" + Ansi.Reset)
  {
  }

  /** Two string item lines, joined, read like one string item line
      whose text holds the closing quote, reset code, separator,
      indentation, green code and opening quote in between. */
  lemma SplicedString(x: string, y: string)
    ensures "  " + Colorize(Str(x), 1) + ",\n" + ("  " + Colorize(Str(y), 1))
      == "  " + Colorize(Str(x + "\"" + Ansi.Reset + ",\n  " + Ansi.Green + "\"" + y), 1)
  {
    var open, close, sep := "  " + Ansi.Green + "\"", "\"" + Ansi.Reset, ",\n";
    var mid := close + sep + open;
    var spliced := x + "\"" + Ansi.Reset + ",\n  " + Ansi.Green + "\"" + y;
    StringLine(x);
    StringLine(y);
    StringLine(spliced);
    assert x + "\"" + Ansi.Reset + ",\n  " + Ansi.Green + "\"" == x + mid by {
      assert close + sep + open == "\"" + Ansi.Reset + ",\n  " + Ansi.Green + "\"";
    }
    var tail := open + (y + close);
    Assoc(open, y, close);
    Assoc(open + x + close, sep, tail);
    Assoc(open + x, close, sep + tail);
    Assoc(open, x, close + (sep + tail));
    Assoc(open, x + mid + y, close);
    Assoc(x + mid, y, close);
    Assoc(x, mid, y + close);
    Assoc(close + sep, open, y + close);
    Assoc(close, sep, open + (y + close));
  }

  /** Without escaping, the rendering does not determine the value: an
      array of two strings renders exactly like an array of one string
      that holds a double quote, the reset code, the item separator and
      the green code between them. */
  lemma QuotesMakeRenderingAmbiguous(x: string, y: string)
    ensures var twoItems := Arr([Str(x), Str(y)]);
      var oneItem := Arr([Str(x + "\"" + Ansi.Reset + ",\n  " + Ansi.Green + "\"" + y)]);
      twoItems != oneItem && Colorize(twoItems, 0) == Colorize(oneItem, 0)
  {
    var spliced := x + "\"" + Ansi.Reset + ",\n  " + Ansi.Green + "\"" + y;
    assert |Arr([Str(x), Str(y)]).items| != |Arr([Str(spliced)]).items|;
    OneStringRendering(spliced);
    TwoStringRendering(x, y);
    SplicedString(x, y);
  }
}

=== FILE: report.dfy ===
/** The pure parts of `viewLast24Hours` (report.js:50-97): the start of the
    24-hour window, and the rewrite of each stored log into the record that
    is printed with `colorizeJson`. */
module Report {

  import opened Options
  import opened Text
  import Decimal
  import opened JsonTree
  import opened Render
  import opened Reparse

  /** `24 * 60 * 60 * 1000`: one day in milliseconds. */
  const DayMs: int := 24 * 60 * 60 * 1000

  /** `Date.now() - 24 * 60 * 60 * 1000`: the earliest timestamp, in
      milliseconds since the epoch, of a log the report asks for. */
  function Cutoff(nowMs: int): (r: int)
    ensures nowMs - r == 86_400_000
  {
    nowMs - DayMs
  }

  /** A field value as the database hands it back: a JSON value, or the
      ObjectId the database assigned, with the hex text its `toString`
      gives. */
  datatype Stored = Plain(json: Json) | ObjectId(hex: string)

  /** A stored log: its fields in the order the database returns them. */
  type Document = seq<(string, Stored)>

  /** `String(j)` for a JSON value: an array joins its items' texts with
      commas (a null item gives the empty text), an object gives
      `[object Object]`. */
  function JsString(j: Json): (r: string)
    ensures j.Null? ==> r == "null"
    ensures j.Str? ==> r == j.s
    ensures j.Num? ==> r == Decimal.IntText(j.n) && Decimal.ParseInt(r) == Some((j.n, ""))
    ensures j.Bool? ==> r == (if j.b then "true" else "false")
    ensures j.Arr? && |j.items| == 0 ==> r == ""
    ensures j.Obj? ==> r == "[object Object]"
    decreases j, 1
  {
    match j
    case Null => "null"
    case Str(s) => s
    case Num(n) =>
      Decimal.ParseIntText(n, "");
      assert Decimal.IntText(n) + "" == Decimal.IntText(n);
      Decimal.IntText(n)
    case Bool(b) => if b then "true" else "false"
    case Arr(items) => Join(ElementTexts(items), ",")
    case Obj(_) => "[object Object]"
  }

  /** The texts an array joins, one slot per item. */
  function ElementTexts(items: seq<Json>): (texts: seq<string>)
    ensures |texts| == |items|
    decreases Arr(items), 0
  {
    seq(|items|, i requires 0 <= i < |items| => Slot(items[i]))
  }

  /** An array item's slot in the array's text: empty for null, the
      item's own text otherwise. */
  function Slot(x: Json): string
    decreases x, 2
  {
    if x.Null? then "" else JsString(x)
  }

  /** `Array.prototype.toString` for every array: one item gives its slot,
      and each further item adds a comma and its slot at the end. Nested
      arrays are flattened into their slots, since an item's slot is its
      own text. */
  lemma JsStringArrayRule(items: seq<Json>, x: Json)
    ensures JsString(Arr([x])) == Slot(x)
    ensures |items| > 0 ==> JsString(Arr(items + [x])) == JsString(Arr(items)) + "," + Slot(x)
  {
    assert ElementTexts([x]) == [Slot(x)];
    if |items| > 0 {
      assert ElementTexts(items + [x]) == ElementTexts(items) + [Slot(x)];
      JoinLast(ElementTexts(items), Slot(x), ",");
    }
  }

  /** An array's text joins its items' texts with commas, flattening
      nested arrays, and a null item leaves an empty slot:
      `String([null, 1, ["x", null]])` is `",1,x,"`. */
  lemma JsStringArrays()
    ensures JsString(Arr([Null, Num(1), Arr([Str("x"), Null])])) == ",1,x,"
    ensures JsString(Arr([Null])) == ""
    ensures JsString(Arr([Bool(true), Obj([])])) == "true,[object Object]"
  {
    NestedArrayText();
    JsStringArrayRule([], Null);
    MixedArrayText();
  }

  /** `String([true, {}])`. */
  lemma MixedArrayText()
    ensures JsString(Arr([Bool(true), Obj([])])) == "true,[object Object]"
  {
    JsStringArrayRule([], Bool(true));
    JsStringArrayRule([Bool(true)], Obj([]));
    assert [Bool(true)] + [Obj([])] == [Bool(true), Obj([])];
  }

  /** `String(["x", null])`. */
  lemma InnerArrayText()
    ensures JsString(Arr([Str("x"), Null])) == "x,"
  {
    JsStringArrayRule([], Str("x"));
    JsStringArrayRule([Str("x")], Null);
    assert [Str("x")] + [Null] == [Str("x"), Null];
  }

  /** `String([null, 1])`. */
  lemma NullOneText()
    ensures JsString(Arr([Null, Num(1)])) == ",1"
  {
    assert Decimal.IntText(1) == "1" by {
      assert Decimal.NatText(1) == [Decimal.DigitChar(1)];
    }
    JsStringArrayRule([], Null);
    JsStringArrayRule([Null], Num(1));
    assert [Null] + [Num(1)] == [Null, Num(1)];
  }

  /** `String([null, 1, ["x", null]])`, one item at a time. */
  lemma NestedArrayText()
    ensures JsString(Arr([Null, Num(1), Arr([Str("x"), Null])])) == ",1,x,"
  {
    var inner := Arr([Str("x"), Null]);
    InnerArrayText();
    NullOneText();
    JsStringArrayRule([Null, Num(1)], inner);
    assert [Null, Num(1)] + [inner] == [Null, Num(1), inner];
    assert Slot(inner) == "x,";
  }

  /** `v.toString()`: the ObjectId's hex text, or the JSON value's text;
      `None` for null, where the call throws a TypeError. */
  function IdText(v: Stored): (r: Option<string>)
    ensures r.None? <==> v == Plain(Null)
    ensures v.ObjectId? ==> r == Some(v.hex)
    ensures v.Plain? && !v.json.Null? ==> r == Some(JsString(v.json))
  {
    match v
    case ObjectId(hex) => Some(hex)
    case Plain(j) => if j.Null? then None else Some(JsString(j))
  }

  /** The position of the first field named `key`, or `|doc|` when
      there is none. */
  function IndexOf(doc: Document, key: string): (k: nat)
    ensures k <= |doc|
    ensures k < |doc| ==> doc[k].0 == key
    ensures forall p :: 0 <= p < k ==> doc[p].0 != key
  {
    if |doc| == 0 || doc[0].0 == key then 0 else 1 + IndexOf(doc[1..], key)
  }

  /** `doc[key]`: the value of the first field named `key`. */
  function Lookup(doc: Document, key: string): (r: Option<Stored>)
    ensures r.None? <==> forall p :: 0 <= p < |doc| ==> doc[p].0 != key
    ensures r.Some? ==>
      exists k :: 0 <= k < |doc| && doc[k] == (key, r.value) && (forall p :: 0 <= p < k ==> doc[p].0 != key)
  {
    var k := IndexOf(doc, key);
    if k == |doc| then None else Some(doc[k].1)
  }

  /** `{ ...log, _id: log._id.toString() }` (report.js:81-84): the
      record that is printed. It fails where the source throws, when the
      log has no `_id` or a null one; otherwise it has the same keys in
      the same order, `_id` now holds the text of its old value, and every
      other field is unchanged. */
  function DisplayRecord(doc: Document): (r: Option<Document>)
    ensures r.None? <==> Lookup(doc, "_id").None? || Lookup(doc, "_id").value == Plain(Null)
    ensures r.Some? ==> Keys(r.value) == Keys(doc)
    ensures r.Some? ==> forall i :: 0 <= i < |doc| && doc[i].0 != "_id" ==> r.value[i] == doc[i]
    ensures r.Some? ==> forall i :: 0 <= i < |doc| && doc[i].0 == "_id" ==>
      r.value[i].1 == Plain(Str(IdText(Lookup(doc, "_id").value).value))
  {
    match Lookup(doc, "_id")
    case None => None
    case Some(id) =>
      match IdText(id)
      case None => None
      case Some(text) =>
        var shown := seq(|doc|, i requires 0 <= i < |doc| =>
          if doc[i].0 == "_id" then ("_id", Plain(Str(text))) else doc[i]);
        assert Keys(shown) == Keys(doc);
        Some(shown)
  }

  /** The document as the JSON object `colorizeJson` walks, when every
      field holds a JSON value. */
  function ToJson(doc: Document): (r: Option<Json>)
    ensures r.Some? <==> forall i :: 0 <= i < |doc| ==> doc[i].1.Plain?
    ensures r.Some? ==> r.value.Obj? && Keys(r.value.fields) == Keys(doc)
    ensures r.Some? ==> forall i :: 0 <= i < |doc| ==> r.value.fields[i].1 == doc[i].1.json
  {
    if forall i :: 0 <= i < |doc| ==> doc[i].1.Plain? then
      var fields := seq(|doc|, i requires 0 <= i < |doc| && doc[i].1.Plain? => (doc[i].0, doc[i].1.json));
      assert Keys(fields) == Keys(doc);
      Some(Obj(fields))
    else None
  }

  /** `colorizeJson(logForDisplay)` (report.js:86): the text printed for
      one log. */
  function RenderLog(doc: Document): (r: Option<string>)
    ensures r.Some? <==> DisplayRecord(doc).Some? && ToJson(DisplayRecord(doc).value).Some?
    ensures r.Some? ==> |r.value| >= 2 && r.value[0] == '{'
  {
    match DisplayRecord(doc)
    case None => None
    case Some(shown) =>
      match ToJson(shown)
      case None => None
      case Some(j) => Some(Colorize(j, 0))
  }

  /** The rewrite is idempotent: once `_id` holds text, rewriting again
      changes nothing. */
  lemma DisplayRecordIdempotent(doc: Document)
    requires DisplayRecord(doc).Some?
    ensures DisplayRecord(DisplayRecord(doc).value) == DisplayRecord(doc)
  {
    var shown := DisplayRecord(doc).value;
    var k := IndexOf(doc, "_id");
    var text := IdText(doc[k].1).value;
    assert Keys(shown) == Keys(doc);
    assert forall p :: 0 <= p < |doc| ==> shown[p].0 == doc[p].0 by {
      forall p | 0 <= p < |doc|
        ensures shown[p].0 == doc[p].0
      {
        assert shown[p].0 == Keys(shown)[p];
      }
    }
    assert IndexOf(shown, "_id") == k;
    assert shown[k] == ("_id", Plain(Str(text)));
    assert IdText(Plain(Str(text))) == Some(text);
    var again := DisplayRecord(shown).value;
    assert again == shown;
  }

  /** A log as the database stores it: `_id` is present and not null, and
      every other field holds a JSON value. */
  predicate StoredLog(doc: Document)
  {
    && Lookup(doc, "_id").Some? && Lookup(doc, "_id").value != Plain(Null)
    && forall i :: 0 <= i < |doc| && doc[i].0 != "_id" ==> doc[i].1.Plain?
  }

  /** The rewrite is what makes a stored log printable: for a stored log it
      succeeds, and its result is a JSON object with the log's keys in the
      log's order, in which every field other than `_id` is unchanged. */
  lemma StoredLogRenders(doc: Document)
    requires StoredLog(doc)
    ensures DisplayRecord(doc).Some?
    ensures var j := ToJson(DisplayRecord(doc).value);
      && j.Some? && Keys(j.value.fields) == Keys(doc)
      && (forall i :: 0 <= i < |doc| && doc[i].0 != "_id" ==> j.value.fields[i].1 == doc[i].1.json)
    ensures RenderLog(doc).Some?
  {
    var shown := DisplayRecord(doc).value;
    assert forall i :: 0 <= i < |shown| ==> shown[i].1.Plain? by {
      forall i | 0 <= i < |shown|
        ensures shown[i].1.Plain?
      {
        assert shown[i].0 == Keys(shown)[i] == Keys(doc)[i];
      }
    }
  }

  /** Every text in the printed log is free of double quotes. */
  predicate QuoteFreeLog(doc: Document)
  {
    && (forall i :: 0 <= i < |doc| ==> '"' !in doc[i].0)
    && (forall i :: 0 <= i < |doc| && doc[i].1.Plain? ==> QuoteFree(doc[i].1.json))
    && (Lookup(doc, "_id").Some? && IdText(Lookup(doc, "_id").value).Some?
        ==> '"' !in IdText(Lookup(doc, "_id").value).value)
  }

  /** The text printed for a quote-free stored log can be read back into
      the printed record: each key once, in the log's order, each non-`_id`
      value as stored, and `_id` as the text of its old value. */
  lemma RenderLogReadsBack(doc: Document)
    requires StoredLog(doc) && QuoteFreeLog(doc)
    ensures RenderLog(doc).Some? && DisplayRecord(doc).Some? && ToJson(DisplayRecord(doc).value).Some?
    ensures var j := ToJson(DisplayRecord(doc).value).value;
      && ParseValue(RenderLog(doc).value, 0) == Some((j, ""))
      && j.Obj? && Keys(j.fields) == Keys(doc)
      && (forall i :: 0 <= i < |doc| && doc[i].0 != "_id" ==> j.fields[i].1 == doc[i].1.json)
      && (forall i :: 0 <= i < |doc| && doc[i].0 == "_id" ==>
            j.fields[i].1 == Str(IdText(Lookup(doc, "_id").value).value))
  {
    StoredLogRenders(doc);
    var shown := DisplayRecord(doc).value;
    var j := ToJson(shown).value;
    assert QuoteFree(j) by {
      forall i | 0 <= i < |j.fields|
        ensures '"' !in j.fields[i].0 && QuoteFree(j.fields[i].1)
      {
        assert j.fields[i].0 == Keys(j.fields)[i] == Keys(doc)[i] == doc[i].0;
        if doc[i].0 == "_id" {
          assert j.fields[i].1 == Str(IdText(Lookup(doc, "_id").value).value);
        } else {
          assert j.fields[i].1 == doc[i].1.json;
        }
      }
    }
    ValueRoundTrip(j, 0, "");
    assert Colorize(j, 0) + "" == RenderLog(doc).value;
  }
}

=== FILE: text.dfy ===
/** String helpers the renderer is built from: JavaScript's
    `String.prototype.repeat` on two spaces, `Array.prototype.join`, and
    prefix tests used by the reader. */
module Text {

  import opened Options

  /** `'  '.repeat(n)`: the indentation of nesting level `n`. */
  function Spaces(n: nat): (r: string)
    ensures |r| == 2 * n
    ensures forall i :: 0 <= i < |r| ==> r[i] == ' '
  {
    if n == 0 then "" else "  " + Spaces(n - 1)
  }

  /** The two spaces the renderer appends to a level's indentation are the
      indentation of the next level. */
  lemma SpacesStep(n: nat)
    ensures Spaces(n) + "  " == Spaces(n + 1)
  {
    var a, b := Spaces(n) + "  ", Spaces(n + 1);
    assert |a| == |b|;
    forall i | 0 <= i < |a|
      ensures a[i] == b[i]
    {
    }
  }

  /** The combined length of `parts`. */
  function TotalLength(parts: seq<string>): nat
  {
    if |parts| == 0 then 0 else |parts[0]| + TotalLength(parts[1..])
  }

  /** `parts.join(sep)`: the parts in order with one separator between
      each two, and nothing else. */
  function Join(parts: seq<string>, sep: string): (r: string)
    ensures |parts| == 0 ==> r == ""
    ensures |parts| > 0 ==> |r| == TotalLength(parts) + (|parts| - 1) * |sep|
    ensures |parts| > 0 ==> r[..|parts[0]|] == parts[0]
  {
    if |parts| == 0 then ""
    else if |parts| == 1 then parts[0]
    else parts[0] + sep + Join(parts[1..], sep)
  }

  /** Joining at least two parts puts the first in front of the rest. */
  lemma JoinFirst(parts: seq<string>, sep: string)
    requires |parts| >= 2
    ensures Join(parts, sep) == parts[0] + sep + Join(parts[1..], sep)
  {
  }

  /** Joining one more part puts it after the others, behind a
      separator. */
  lemma {:induction false} JoinLast(parts: seq<string>, last: string, sep: string)
    requires |parts| > 0
    ensures Join(parts + [last], sep) == Join(parts, sep) + sep + last
    decreases |parts|
  {
    var all := parts + [last];
    if |parts| == 1 {
      assert all == [parts[0], last];
      JoinFirst(all, sep);
      assert all[1..] == [last];
    } else {
      var front, rest := parts[0] + sep, Join(parts[1..], sep);
      JoinFirst(all, sep);
      assert all[1..] == parts[1..] + [last];
      JoinLast(parts[1..], last, sep);
      JoinFirst(parts, sep);
      Assoc(front, rest + sep, last);
      Assoc(front, rest, sep);
    }
  }

  predicate StartsWith(s: string, prefix: string)
  {
    |prefix| <= |s| && s[..|prefix|] == prefix
  }

  /** Consumes `prefix` from the front of `s`, or fails. */
  function Expect(s: string, prefix: string): (r: Option<string>)
    ensures r.Some? <==> StartsWith(s, prefix)
    ensures r.Some? ==> s == prefix + r.value
  {
    if StartsWith(s, prefix) then
      assert s == s[..|prefix|] + s[|prefix|..];
      Some(s[|prefix|..])
    else None
  }

  lemma ExpectConcat(prefix: string, rest: string)
    ensures Expect(prefix + rest, prefix) == Some(rest)
  {
    assert (prefix + rest)[..|prefix|] == prefix;
  }

  /** A text whose character at `i` differs from the prefix's does not start
      with that prefix. */
  lemma NotStartsWith(s: string, prefix: string, i: nat)
    requires i < |prefix| && i < |s| && s[i] != prefix[i]
    ensures !StartsWith(s, prefix)
  {
    if |prefix| <= |s| {
      assert s[..|prefix|][i] != prefix[i];
    }
  }

  /** Concatenation is associative. */
  lemma Assoc(a: string, b: string, c: string)
    ensures a + b + c == a + (b + c)
  {
  }

  /** Regrouping a concatenation of five texts to the right. */
  lemma Regroup(a: string, b: string, c: string, d: string, e: string)
    ensures a + b + c + d + e == a + (b + (c + (d + e)))
  {
  }

  /** A suffix of a sequence is its first element followed by the rest. */
  lemma SuffixCons<T>(s: seq<T>, k: nat)
    requires k < |s|
    ensures s[k..] == [s[k]] + s[k + 1..]
    ensures k + 1 == |s| ==> s[k..] == [s[k]]
  {
  }
}
